=== FILE: README.md ===
# flat-ast-interpreter: lexer and parser

This is a Dafny model of the front end of a small interpreter for arithmetic
expressions. It covers two parts:

- `Lex` (lex.dfy) is the lexer. A cursor walks over the source, skips plain
  spaces and emits one token per call. A token is a `{kind, start, length}` span
  into the source and does not own its text. Its kind is one of the four
  operators, a parenthesis, a number (a run of digits) or an identifier (a run
  of letters).
- `Parse` (parse.dfy) is the parser and the renderer. Parsing is precedence
  climbing over the token sequence. Every node is appended to an arena, the
  `AstPool`, and a binary node refers to its children by their index in it.
  `display_ast` renders the last node in prefix form, e.g. `( + ( * 10 20 ) 30 )`.
- `Cases` (cases.dfy) restates the lexer's own test cases. It also works some
  whole-pipeline examples from source text to rendered tree.
- `Wrappers` (wrappers.dfy) holds `Option` and `Result`.

Sources are ASCII strings, so a character index and a byte offset coincide.
The identifier arm of the lexer computes a wrong length (see Findings).
`Lex.NextAsWritten` models that arm as written. `Lex.Next` is the corrected
step, and the token sequence `Lex.Tokenize` is built from it.

Two behaviours of the parser shape every tree:

- Operators of equal precedence nest to the right: `10 - 20 - 30` renders as
  `( - 10 ( - 20 30 ) )`. The right operand is parsed with the operator's own
  precedence as its floor, and the loop there stops only below it.
- A `)` is consumed by the innermost operator loop that meets it, so
  `10 * (20 + 30) * 20` renders as `( * 10 ( * ( + 20 30 ) 20 ) )`.

## Model

| member | source | states |
|---|---|---|
| `Lex.New` | src/lex.rs:71-73 | A fresh lexer has its cursor at offset 0 over the given source. |
| `Lex.SkipWhitespace` | src/lex.rs:75-79 | The result is the first offset at or after the cursor that does not hold a space. Every offset skipped holds a space, and the result never passes the end. |
| `Lex.Find` | src/lex.rs:113-114 | `find` gives the index of the first character satisfying the predicate, or None exactly when no character does. |
| `Lex.RunEnd` | src/lex.rs:122-127 | Reference definition of a digit or letter run: where it ends, and that it is maximal. |
| `Lex.FindIsRunLength` | src/lex.rs:122-125 | Searching the rest of the source for the first character outside the run, with the rest's length as fallback, yields exactly the run's length. |
| `Lex.ScanRun` | src/lex.rs:122-128 | The `Numeric` arm emits a token that starts at the first digit and ends where the maximal run ends. The cursor moves to the token's end. |
| `Lex.Next` | src/lex.rs:85-130 | One call of `next`. It is done exactly when only spaces remain, and then the cursor sits at the end. It fails exactly on an unknown first non-space character, reporting that character and its offset. Otherwise it emits a classified token at the first non-space offset and moves the cursor past it. |
| `Lex.NextToken` | src/lex.rs:94-128 | The emitted token by its first character: an operator or parenthesis has length 1 and its own kind. A digit or letter gives the whole maximal run as `Num` or `Ident`. |
| `Lex.NextEmits` | src/lex.rs:86-128 | Conversely, when only spaces lie before a classified token, `next` emits exactly that token and moves past it. |
| `Lex.DoneIsFinal` | src/lex.rs:85-92 | Once `next` has returned None, it keeps returning None and the cursor does not move. |
| `Lex.IdentAsWritten` | src/lex.rs:112-120 | The identifier arm as written, measured against the true letter run: when the run reaches the end of the source the length is the rest's length; otherwise it is the run length less `start`, and it underflows exactly when the run is no longer than `start`. The cursor moves to the end of the emitted span. |
| `Lex.NextAsWritten` | src/lex.rs:112-121 | The code as written agrees with the corrected step on everything except identifiers. |
| `Lex.IdentAsWrittenAgrees` | src/lex.rs:112-121 | The identifier arm as written gives the right token when the identifier starts at offset 0 or runs to the end of the source. |
| `Lex.IdentAsWrittenUnderflows` | src/lex.rs:113-118 | On `a + b * c` at offset 4, the arm as written subtracts below zero, while the corrected step emits `b`. |
| `Lex.IdentAsWrittenTruncates` | src/lex.rs:113-118 | On `+abc+` at offset 1, the arm as written emits a 2-character identifier and leaves the cursor inside it, while the corrected step emits all 3 letters. |
| `Lex.Tokenize` | src/lex.rs:82-130 | Repeated `next` until None. It succeeds exactly when no unknown character lies ahead. Its tokens are classified and lie in order with only spaces around them. On failure, it reports the first unknown character from the cursor, at its real offset. |
| `Lex.TokenizeUnique` | src/lex.rs:82-130 | The converse of `Tokenize`: any classified tokens laid out from the cursor with only spaces between them are exactly what the corrected lexer produces. |
| `Lex.TokenizeCons` | src/lex.rs:86-130 | The corrected lexer's output from a cursor is the classified token after the spaces there, followed by the output from that token's end. |
| `Lex.Tokens` | src/lex.rs:71-73 | Collecting a fresh corrected lexer succeeds exactly when the source holds no unknown character. The tokens then cover the source from offset 0. |
| `Lex.AsWrittenFailsOrAgrees` | src/lex.rs:82-130 | The property of collecting with the code as written, modelled by `Lex.TokenizeAsWritten` (repeated `NextAsWritten` until None or a failure): from any cursor it either stops with an underflow or yields exactly the corrected lexer's tokens or error. |
| `Lex.IdentAsWrittenStalls` | src/lex.rs:113-118 | When the arm as written shortens an identifier, the cursor lands inside its letter run and the next call underflows there. |
| `Lex.AsWrittenStalls` | src/lex.rs:112-121 | Collecting as written from a cursor before such an identifier fails with an underflow. |
| `Lex.LayoutOrdered` | src/lex.rs:86-130 | Emitted tokens are strictly increasing and do not overlap. Each lies within the source. |
| `Lex.TokenText` | src/lex.rs:145-153 | `DisplayToken` is the slice of the source the token spans: character `i` of the text is source character `start + i`. |
| `Lex.ClassifiedText` | src/lex.rs:94-128 | The text of a token is its operator or parenthesis character, or a non-empty run of digits or of letters, by kind. |
| `Parse.AstPool.Push` | src/parse.rs:48-50 | `push` appends the node at the next index and leaves every existing node in place. |
| `Parse.NewPool` | src/parse.rs:41-43 | A new pool is empty. |
| `Parse.OperatorText` | src/parse.rs:133-138 | `is_operator` holds for a lexed token exactly when its text is one of `+`, `-`, `*`, `/`. |
| `Parse.GetPrecedence` | src/parse.rs:126-132 | A precedence is defined exactly for the tokens `is_operator` accepts, and only `*` and `/` get the higher class. |
| `Parse.PrecedenceOrder` | src/parse.rs:33-38 | The derived ordering puts LOWEST below ADDSUB below MULDIV. It is a strict order. |
| `Parse.ParseExpr` | src/parse.rs:74-124 | `parse_expr` never moves backwards or past the end. The pool only grows. At end of input it yields None and changes nothing, and it yields None only at end of input. When it yields an expression, it has consumed at least one token. |
| `Parse.ParseLoop` | src/parse.rs:90-121 | The operator loop never moves backwards or past the end, only appends to the pool, and returns None only when a right operand is missing at end of input. |
| `Parse.LoopStops` | src/parse.rs:91-109 | The loop returns its left operand without consuming anything exactly at end of input, at a non-operator other than `)`, or at an operator below the floor. At a `)` it consumes it and stops. |
| `Parse.ParseTop` | src/parse.rs:67-69 | The `parse_ast` loop only appends to the pool and stops at end of input. |
| `Parse.ParseAst` | src/parse.rs:59-72 | No tokens give an empty pool. |
| `Parse.ExprKeepsPool` | src/parse.rs:111-123 | `parse_expr` keeps the arena invariant and returns a node that can be pushed next. A binary node refers to two earlier nodes, left before right, and holds an operator. Every token held comes from the input, and no literal is `(`. |
| `Parse.LoopKeepsPool` | src/parse.rs:111-120 | Each loop iteration keeps the arena invariant: the left and right operands are pushed before the node that refers to them. |
| `Parse.TopKeepsPool` | src/parse.rs:67-69 | Pushing each top-level expression keeps the arena invariant. |
| `Parse.ParseAstKeepsPool` | src/parse.rs:59-72 | Every node of a parsed pool refers only to earlier nodes and holds tokens of the input. |
| `Parse.NestsRight` | src/parse.rs:107-118 | For `a o1 b o2 c`, when `o2` binds at least as tightly as `o1` (equal included), the tree is `a o1 (b o2 c)`, with the exact pool layout. |
| `Parse.RightOperandNests` | src/parse.rs:116 | The right operand of `o1` is `b o2 c`, because its loop stops only below `o1`'s precedence. |
| `Parse.GroupsLeft` | src/parse.rs:107-118 | For `a o1 b o2 c`, when `o2` binds less tightly than `o1`, the tree is `(a o1 b) o2 c`, with the exact pool layout. |
| `Parse.RightOperandStops` | src/parse.rs:107-109 | The right operand of `o1` is just `b`: the loop stops at the looser `o2` and leaves it unconsumed. |
| `Parse.DisplayAst` | src/parse.rs:12-16 | Rendering fails, with "Tree Was Empty", exactly when the pool is empty. |
| `Parse.RenderBalanced` | src/parse.rs:18-30 | The property of `display_expr`, modelled by `DisplayExpr`: when no token of the pool is a parenthesis, the rendering of a node holds as many `(` as `)`, and it starts with `(` exactly when the node is binary. |
| `Parse.ParsedIsDisplayable` | src/parse.rs:18-30 | A pool parsed from the tokens of a source can always be rendered against it: no "Invalid Index" lookup fails and no token slice leaves the source. |
| `Cases.LexOperators` | src/lex.rs:158-170 | `++--**//` lexes into eight one-character operator tokens at offsets 0 to 7. |
| `Cases.LexIdentAndNumber` | src/lex.rs:171-177 | `abcabc*123123` lexes into Ident(0,6), Mul(6,1) and Num(7,6). Collecting with the code as written, as the test does, gives the same tokens, because the identifier starts at 0. |
| `Cases.IdentNumberAsWritten` | src/lex.rs:171-177 | The code as written collects exactly Ident(0,6), Mul(6,1) and Num(7,6) from `abcabc*123123`. |
| `Cases.LexNumbersAndOperators` | src/lex.rs:178-191 | `10*20-30+40/50` lexes into alternating two-digit numbers and operators at their offsets. |
| `Cases.LexWhitespace` | src/lex.rs:200-214 | With ten spaces around and between `10`, `+` and `10`, the tokens keep their offsets in the spaced text (10, 22, 33). |
| `Cases.LexParens` | src/lex.rs:216-239 | `(((((())))))` lexes into six LParen then six RParen tokens of length 1. |
| `Cases.ParenList` | src/lex.rs:219-236 | The expected parenthesis tokens, written out one by one as in the test. |
| `Cases.LexUnderflowAsWritten` | src/lex.rs:113-118 | On `a + b * c` the corrected lexer succeeds, while collecting as written stops with an underflow at offset 4. |
| `Cases.LexUnknown` | src/lex.rs:105-108 | `1 + ?` stops the lexer with the unknown `?` at offset 4. |
| `Cases.RenderPrecedence` | src/parse.rs:12-30 | `10 * 20 + 30` lexes, parses into the pool of `(10 * 20) + 30` and renders as `( + ( * 10 20 ) 30 )`. |
| `Cases.RenderChain` | src/parse.rs:107-118 | `10 - 20 - 30` parses into the right-nested tree and renders as `( - 10 ( - 20 30 ) )`. |
| `Cases.RenderGroup` | src/parse.rs:84-99 | `10 * (20 + 30) * 20` renders as `( * 10 ( * ( + 20 30 ) 20 ) )`: the `)` is consumed inside the group, and the second `*` nests to the right. |
| `Cases.ParseDangling` | src/parse.rs:113-116 | `10 +` leaves the pushed `10` in the pool and no binary node, because the missing right operand ends parsing. |
| `Cases.RenderDangling` | src/parse.rs:12-16 | `10 +` lexes into two tokens, parses into a pool holding only the literal `10`, and renders as `10`. |
| `Cases.RenderNothing` | src/parse.rs:14 | A source of spaces gives no tokens and an empty pool, and rendering fails with "Tree Was Empty". |

## Left out

- src/main.rs is a demo driver with its own unused `AstPool`; it is not part of this model.
- The `Display` impls of `Kind` and `Token` (src/lex.rs:15-33 and 58-62) only format for printing and are not modelled.
- Sources are modelled as ASCII. `IsLetter` is `char::is_alphabetic` restricted to ASCII letters, so a non-ASCII letter is an unknown character here. Byte offsets versus `char` lengths are not modelled.
- `Lex.Next`: the `todo!()` on an unknown character (with its `println!`) is modelled as the error `UnknownChar`, not as a halt.
- `Lex.NextAsWritten`: the `usize` subtractions of the identifier arm are modelled as they behave in a debug build, as the error `Underflow`. The wrap-around of a release build is not modelled.
- `Lex.Tokenize` is built on the corrected `Lex.Next`, not on `Lex.NextAsWritten`. The lexer's tests never hit the bug, since their only identifier starts at offset 0. `Lex.AsWrittenFailsOrAgrees` proves that the code as written either panics or gives the same result.
- `Lex.Tokens` is `Lex.Tokenize` from offset 0, so it too uses the corrected step. On `a + b * c` it succeeds where the code as written underflows (`Cases.LexUnderflowAsWritten`).
- The `Peekable` token iterator is a sequence with a position. Peeking reads the token at the position, and consuming moves the position on.
- `Parse.DisplayAst`: the "Invalid Index" `expect`s and the slice panics of `DisplayToken` are preconditions (`Displayable`: both children stored below their parent, and every span within the source), not modelled panics. A child stored at or above its parent is excluded as well, which is what makes rendering terminate: the code also renders a forward reference that closes no cycle, and recurses without end on one that does. `Parse.ParsedIsDisplayable` proves that the preconditions hold for every pool parsed from a successful tokenization of the same source.
- `Parse.RenderBalanced` requires that no token of the pool is a parenthesis. The parser turns a stray leading `)` into a literal, whose rendering holds an unmatched `)`.
- `Parse.DisplayAst` and `Parse.DisplayExpr` state no contract about the rendered text beyond `Parse.RenderBalanced`; the full text is pinned only in the concrete cases.

## Findings

| source | as written | input that shows it | evidently intended | confidence | as-written member | corrected member |
|---|---|---|---|---|---|---|
| src/lex.rs:113-118 | The identifier end comes from `find` on the rest of the source, so it is relative to `start`, yet `start` is subtracted from it as if it were absolute. | `a + b * c` at `b` (offset 4): `end - start` is 1 - 4, a `usize` underflow. `+abc+` at offset 1: the length is 3 - 1 = 2 instead of 3, and the cursor stops inside the identifier. | The length is the `find` offset itself, as in the `Numeric` arm: the whole maximal letter run. | not executed | `Lex.NextAsWritten`, `Lex.IdentAsWrittenUnderflows`, `Lex.IdentAsWrittenTruncates` | `Lex.Next`, `Lex.NextToken` |

=== FILE: cases.dfy ===
/**
  Concrete inputs: the cases of the lexer's tests (src/lex.rs:155-239) and
  the parser's behaviour on small expressions, observed through the prefix
  renderer `display_ast`.

  The cases are stated for any `src` that spells the text character by
  character, which is the same as `src` being that text.  Each expected token
  sequence is named by a function, and each case is split into the layout of
  its tokens, the lexer's output, the tree and the rendering.
*/
module Cases {
  import opened Wrappers
  import opened Lex
  import opened Parse

  /** `src` is, character for character, `text`.  This is `src == text`,
      stated pointwise: the cases below then read single characters of `src`
      instead of unfolding the whole literal into a sequence equality, which
      keeps their proofs small. */
  predicate Spells(src: string, text: string) {
    |src| == |text| && forall k :: 0 <= k < |src| ==> src[k] == text[k]
  }

  /** The premise of `TokenizeUnique` for the tokens `ts` of all of `src`. */
  predicate Lexes(src: string, ts: seq<Token>) {
    Layout(src, 0, ts) && forall i :: 0 <= i < |ts| ==> Classified(src, ts[i])
  }

  // ---------------------------------------------------------------------------
  // Lexer tests
  // ---------------------------------------------------------------------------

  function OperatorTokens(): seq<Token> {
    [Token(Add, 0, 1), Token(Add, 1, 1), Token(Sub, 2, 1), Token(Sub, 3, 1),
     Token(Mul, 4, 1), Token(Mul, 5, 1), Token(Div, 6, 1), Token(Div, 7, 1)]
  }

  lemma OperatorLayout(src: string)
    requires Spells(src, "++--**//")
    ensures Lexes(src, OperatorTokens())
  {
    var t := OperatorTokens();
    assert forall i :: 0 <= i < |t| ==> t[i] == Token(t[i].kind, i, 1);
    assert forall i :: 0 <= i < |t| ==> PunctKind(src[i]) == Some(t[i].kind);
  }

  lemma LexOperators(src: string)
    requires Spells(src, "++--**//")
    ensures Tokens(src) == Ok(OperatorTokens())
  {
    OperatorLayout(src);
    TokenizeUnique(src, 0, OperatorTokens());
  }

  function IdentNumberTokens(): seq<Token> {
    [Token(Ident, 0, 6), Token(Mul, 6, 1), Token(Num, 7, 6)]
  }

  lemma IdentNumberLayout(src: string)
    requires Spells(src, "abcabc*123123")
    ensures Lexes(src, IdentNumberTokens())
  {
  }

  /** The identifier starts at offset 0, so the code as written, which the
      test runs, collects the same tokens. */
  lemma LexIdentAndNumber(src: string)
    requires Spells(src, "abcabc*123123")
    ensures Tokens(src) == Ok(IdentNumberTokens())
    ensures TokenizeAsWritten(src, 0) == Tokens(src)
  {
    IdentNumberLayout(src);
    TokenizeUnique(src, 0, IdentNumberTokens());
    IdentNumberAsWritten(src);
  }

  /** The calls of `next` as written on `abcabc*123123`, from the last back. */
  lemma IdentNumberAsWritten(src: string)
    requires Spells(src, "abcabc*123123")
    ensures TokenizeAsWritten(src, 0) == Ok(IdentNumberTokens())
  {
    var t := IdentNumberTokens();
    IdentNumberLayout(src);
    assert Classified(src, t[0]) && Classified(src, t[1]) && Classified(src, t[2]);
    SkipWhitespaceTo(src, 13, 13);
    assert TokenizeAsWritten(src, 13) == Ok([]);
    NextEmits(src, 7, t[2]);
    assert [t[2]] + [] == [t[2]];
    assert TokenizeAsWritten(src, 7) == Ok([t[2]]);
    NextEmits(src, 6, t[1]);
    assert [t[1]] + [t[2]] == [t[1], t[2]];
    assert TokenizeAsWritten(src, 6) == Ok([t[1], t[2]]);
    NextEmits(src, 0, t[0]);
    IdentAsWrittenAgrees(Lexer(0, src));
    assert [t[0]] + [t[1], t[2]] == t;
  }

  function ArithmeticTokens(): seq<Token> {
    [Token(Num, 0, 2), Token(Mul, 2, 1), Token(Num, 3, 2), Token(Sub, 5, 1), Token(Num, 6, 2),
     Token(Add, 8, 1), Token(Num, 9, 2), Token(Div, 11, 1), Token(Num, 12, 2)]
  }

  lemma ArithmeticLayout(src: string)
    requires Spells(src, "10*20-30+40/50")
    ensures Lexes(src, ArithmeticTokens())
  {
    ArithmeticClassified(src);
    var t := ArithmeticTokens();
    assert forall i :: 0 <= i < |t| - 1 ==> t[i].End() == t[i + 1].start;
  }

  lemma ArithmeticClassified(src: string)
    requires Spells(src, "10*20-30+40/50")
    ensures forall i :: 0 <= i < |ArithmeticTokens()| ==> Classified(src, ArithmeticTokens()[i])
  {
  }

  lemma LexNumbersAndOperators(src: string)
    requires Spells(src, "10*20-30+40/50")
    ensures Tokens(src) == Ok(ArithmeticTokens())
  {
    ArithmeticLayout(src);
    TokenizeUnique(src, 0, ArithmeticTokens());
  }

  function SpacedTokens(): seq<Token> {
    [Token(Num, 10, 2), Token(Add, 22, 1), Token(Num, 33, 2)]
  }

  /** `n` spaces. */
  function Spaces(n: nat): string {
    seq(n, _ => ' ')
  }

  /** The text of the whitespace test: `10`, `+` and `10` between runs of ten spaces. */
  function SpacedText(): string {
    Spaces(10) + "10" + Spaces(10) + "+" + Spaces(10) + "10" + Spaces(10)
  }

  lemma SpacedLayout(src: string)
    requires Spells(src, SpacedText())
    ensures Lexes(src, SpacedTokens())
  {
  }

  /** Offsets are those of the original text, spaces included. */
  lemma LexWhitespace(src: string)
    requires Spells(src, SpacedText())
    ensures Tokens(src) == Ok(SpacedTokens())
  {
    SpacedLayout(src);
    TokenizeUnique(src, 0, SpacedTokens());
  }

  /** Six `(` at offsets 0 to 5, then six `)` at offsets 6 to 11. */
  function ParenTokens(): seq<Token> {
    seq(12, (i: nat) => Token(if i < 6 then LParen else RParen, i, 1))
  }

  /** `ParenTokens` is the list of the test, token for token. */
  lemma ParenList()
    ensures ParenTokens() == [
      Token(LParen, 0, 1), Token(LParen, 1, 1), Token(LParen, 2, 1),
      Token(LParen, 3, 1), Token(LParen, 4, 1), Token(LParen, 5, 1),
      Token(RParen, 6, 1), Token(RParen, 7, 1), Token(RParen, 8, 1),
      Token(RParen, 9, 1), Token(RParen, 10, 1), Token(RParen, 11, 1)]
  {
  }

  lemma ParenLayout(src: string)
    requires Spells(src, "(((((())))))")
    ensures Lexes(src, ParenTokens())
  {
    var opens, closes := seq(6, _ => '('), seq(6, _ => ')');
    assert "(((((())))))" == opens + closes;
  }

  lemma LexParens(src: string)
    requires Spells(src, "(((((())))))")
    ensures Tokens(src) == Ok(ParenTokens())
  {
    ParenLayout(src);
    TokenizeUnique(src, 0, ParenTokens());
  }

  /** `a + b * c`: the corrected lexer collects five tokens, while the code as
      written stops with an underflow at `b`. */
  lemma LexUnderflowAsWritten(src: string)
    requires Spells(src, "a + b * c")
    ensures Tokens(src).Ok?
    ensures TokenizeAsWritten(src, 0) == Err(Underflow(4))
  {
    assert forall k :: 0 <= k < |src| ==> !IsUnknown(src[k]);
    UnderflowSteps(src);
    assert TokenizeAsWritten(src, 3) == Err(Underflow(4));
    assert TokenizeAsWritten(src, 1) == Err(Underflow(4));
  }

  /** The three calls of `next` as written on `a + b * c`. */
  lemma UnderflowSteps(src: string)
    requires Spells(src, "a + b * c")
    ensures NextAsWritten(Lexer(0, src)) == Emit(Token(Ident, 0, 1), Lexer(1, src))
    ensures NextAsWritten(Lexer(1, src)) == Emit(Token(Add, 2, 1), Lexer(3, src))
    ensures NextAsWritten(Lexer(3, src)) == Fail(Underflow(4))
  {
    FirstIdentAsWritten(src);
    NextEmits(src, 1, Token(Add, 2, 1));
    SecondIdentAsWritten(src);
  }

  lemma FirstIdentAsWritten(src: string)
    requires Spells(src, "a + b * c")
    ensures NextAsWritten(Lexer(0, src)) == Emit(Token(Ident, 0, 1), Lexer(1, src))
  {
    NextEmits(src, 0, Token(Ident, 0, 1));
    IdentAsWrittenAgrees(Lexer(0, src));
  }

  lemma SecondIdentAsWritten(src: string)
    requires Spells(src, "a + b * c")
    ensures NextAsWritten(Lexer(3, src)) == Fail(Underflow(4))
  {
    SkipWhitespaceTo(src, 3, 4);
    RunEndUnique(src, 4, 5, IsLetter);
  }

  /** An unrecognised character stops the lexer with its offset. */
  lemma LexUnknown(src: string)
    requires Spells(src, "1 + ?")
    ensures Tokens(src) == Err(UnknownChar('?', 4))
  {
    assert IsUnknown(src[4]);
  }

  // ---------------------------------------------------------------------------
  // Parser and renderer
  // ---------------------------------------------------------------------------

  /** `10 * 20 + 30`: the tighter operator comes first and groups to the left. */
  function PrecedenceTokens(): seq<Token> {
    [Token(Num, 0, 2), Token(Mul, 3, 1), Token(Num, 5, 2), Token(Add, 8, 1), Token(Num, 10, 2)]
  }

  function PrecedencePool(): AstPool {
    AstPool([
      Literal(Token(Num, 0, 2)), Literal(Token(Num, 5, 2)),
      BinOp(AstRef(0), Token(Mul, 3, 1), AstRef(1)),
      Literal(Token(Num, 10, 2)),
      BinOp(AstRef(2), Token(Add, 8, 1), AstRef(3))])
  }

  lemma PrecedenceLayout(src: string)
    requires Spells(src, "10 * 20 + 30")
    ensures Lexes(src, PrecedenceTokens())
  {
    var t := PrecedenceTokens();
    assert src[2] == ' ' && src[4] == ' ' && src[7] == ' ' && src[9] == ' ';
    forall i | 0 <= i < |t| - 1
      ensures t[i].End() <= t[i + 1].start && Blank(src, t[i].End(), t[i + 1].start)
    {
      assert t[i].End() + 1 == t[i + 1].start;
    }
  }

  lemma LexPrecedence(src: string)
    requires Spells(src, "10 * 20 + 30")
    ensures Tokens(src) == Ok(PrecedenceTokens())
  {
    PrecedenceLayout(src);
    TokenizeUnique(src, 0, PrecedenceTokens());
  }

  lemma ParsePrecedence()
    ensures ParseAst(PrecedenceTokens()) == PrecedencePool()
  {
    var t := PrecedenceTokens();
    GroupsLeft(t[0], t[1], t[2], t[3], t[4]);
  }

  lemma ShowProduct(src: string)
    requires Spells(src, "10 * 20 + 30")
    ensures Displayable(PrecedencePool(), src)
    ensures DisplayExpr(PrecedencePool(), PrecedencePool().nodes[2], 2, src) == "( * 10 20 )"
  {
    assert src[0..2] == "10" && src[5..7] == "20" && src[3..4] == "*";
  }

  lemma ShowPrecedence(src: string)
    requires Spells(src, "10 * 20 + 30")
    ensures Displayable(PrecedencePool(), src)
    ensures DisplayAst(PrecedencePool(), src) == Ok("( + ( * 10 20 ) 30 )")
  {
    ShowProduct(src);
    var pool := PrecedencePool();
    assert src[10..12] == "30" && src[8..9] == "+";
    assert "( " + "+" + " " + "( * 10 20 )" + " " + "30" + " )" == "( + ( * 10 20 ) 30 )" by {
      assert "( " + "+" + " " == "( + ";
    }
    assert DisplayExpr(pool, pool.nodes[4], 4, src) == "( + ( * 10 20 ) 30 )";
  }

  lemma RenderPrecedence(src: string)
    requires Spells(src, "10 * 20 + 30")
    ensures Tokens(src) == Ok(PrecedenceTokens())
    ensures ParseAst(PrecedenceTokens()) == PrecedencePool()
    ensures Displayable(PrecedencePool(), src)
    ensures DisplayAst(PrecedencePool(), src) == Ok("( + ( * 10 20 ) 30 )")
  {
    LexPrecedence(src);
    ParsePrecedence();
    ShowPrecedence(src);
  }

  /** `10 - 20 - 30`: equal precedence nests to the right, as in the code. */
  function ChainTokens(): seq<Token> {
    [Token(Num, 0, 2), Token(Sub, 3, 1), Token(Num, 5, 2), Token(Sub, 8, 1), Token(Num, 10, 2)]
  }

  function ChainPool(): AstPool {
    AstPool([
      Literal(Token(Num, 0, 2)), Literal(Token(Num, 5, 2)), Literal(Token(Num, 10, 2)),
      BinOp(AstRef(1), Token(Sub, 8, 1), AstRef(2)),
      BinOp(AstRef(0), Token(Sub, 3, 1), AstRef(3))])
  }

  lemma ChainLayout(src: string)
    requires Spells(src, "10 - 20 - 30")
    ensures Lexes(src, ChainTokens())
  {
    var t := ChainTokens();
    assert src[2] == ' ' && src[4] == ' ' && src[7] == ' ' && src[9] == ' ';
    forall i | 0 <= i < |t| - 1
      ensures t[i].End() <= t[i + 1].start && Blank(src, t[i].End(), t[i + 1].start)
    {
      assert t[i].End() + 1 == t[i + 1].start;
    }
  }

  lemma LexChain(src: string)
    requires Spells(src, "10 - 20 - 30")
    ensures Tokens(src) == Ok(ChainTokens())
  {
    ChainLayout(src);
    TokenizeUnique(src, 0, ChainTokens());
  }

  lemma ParseChain()
    ensures ParseAst(ChainTokens()) == ChainPool()
  {
    var t := ChainTokens();
    NestsRight(t[0], t[1], t[2], t[3], t[4]);
  }

  lemma ShowChainTail(src: string)
    requires Spells(src, "10 - 20 - 30")
    ensures Displayable(ChainPool(), src)
    ensures DisplayExpr(ChainPool(), ChainPool().nodes[3], 3, src) == "( - 20 30 )"
  {
    assert src[5..7] == "20" && src[10..12] == "30" && src[8..9] == "-";
  }

  lemma ShowChain(src: string)
    requires Spells(src, "10 - 20 - 30")
    ensures Displayable(ChainPool(), src)
    ensures DisplayAst(ChainPool(), src) == Ok("( - 10 ( - 20 30 ) )")
  {
    ShowChainTail(src);
    var pool := ChainPool();
    assert src[0..2] == "10" && src[3..4] == "-";
    assert "( " + "-" + " " + "10" + " " == "( - 10 ";
    assert "( - 10 " + "( - 20 30 )" + " )" == "( - 10 ( - 20 30 ) )";
    assert DisplayExpr(pool, pool.nodes[4], 4, src) == "( - 10 ( - 20 30 ) )";
  }

  lemma RenderChain(src: string)
    requires Spells(src, "10 - 20 - 30")
    ensures Tokens(src) == Ok(ChainTokens())
    ensures ParseAst(ChainTokens()) == ChainPool()
    ensures Displayable(ChainPool(), src)
    ensures DisplayAst(ChainPool(), src) == Ok("( - 10 ( - 20 30 ) )")
  {
    LexChain(src);
    ParseChain();
    ShowChain(src);
  }

  /** `10 * (20 + 30) * 20`: the `)` is consumed by the loop of `+`, and the
      second `*` is then taken by the loop inside the group, so it applies to
      the group rather than to `10 * (20 + 30)`. */
  function GroupTokens(): seq<Token> {
    [Token(Num, 0, 2), Token(Mul, 3, 1), Token(LParen, 5, 1), Token(Num, 6, 2), Token(Add, 9, 1),
     Token(Num, 11, 2), Token(RParen, 13, 1), Token(Mul, 15, 1), Token(Num, 17, 2)]
  }

  function GroupPool(): AstPool {
    AstPool([
      Literal(Token(Num, 0, 2)), Literal(Token(Num, 6, 2)), Literal(Token(Num, 11, 2)),
      BinOp(AstRef(1), Token(Add, 9, 1), AstRef(2)),
      Literal(Token(Num, 17, 2)),
      BinOp(AstRef(3), Token(Mul, 15, 1), AstRef(4)),
      BinOp(AstRef(0), Token(Mul, 3, 1), AstRef(5))])
  }

  lemma GroupLayout(src: string)
    requires Spells(src, "10 * (20 + 30) * 20")
    ensures Lexes(src, GroupTokens())
  {
    GroupClassified(src);
    GroupSpaced(src);
  }

  lemma GroupClassified(src: string)
    requires Spells(src, "10 * (20 + 30) * 20")
    ensures forall i :: 0 <= i < |GroupTokens()| ==> Classified(src, GroupTokens()[i])
  {
  }

  lemma GroupSpaced(src: string)
    requires Spells(src, "10 * (20 + 30) * 20")
    ensures Layout(src, 0, GroupTokens())
  {
    var t := GroupTokens();
    forall i | 0 <= i < |t| - 1
      ensures t[i].End() <= t[i + 1].start && Blank(src, t[i].End(), t[i + 1].start)
    {
      if i == 0 { assert Blank(src, 2, 3); }
      else if i == 1 { assert Blank(src, 4, 5); }
      else if i == 3 { assert Blank(src, 8, 9); }
      else if i == 4 { assert Blank(src, 10, 11); }
      else if i == 6 { assert Blank(src, 14, 15); }
      else if i == 7 { assert Blank(src, 16, 17); }
    }
  }

  lemma LexGroup(src: string)
    requires Spells(src, "10 * (20 + 30) * 20")
    ensures Tokens(src) == Ok(GroupTokens())
  {
    GroupLayout(src);
    TokenizeUnique(src, 0, GroupTokens());
  }

  /** The first `k` nodes of `GroupPool()`: the pool as parsing builds it. */
  function GroupPrefix(k: nat): AstPool
    requires k <= 7
  {
    AstPool(GroupPool().nodes[..k])
  }

  /** From the `(`: the group `20 + 30` closes at the `)`, and the loop that
      parsed it goes on with `* 20`. */
  lemma ParseGroupInside()
    ensures ParseExpr(GroupTokens(), 2, GroupPrefix(1), MulDiv)
         == Parsed(Some(GroupPool().nodes[5]), 9, GroupPrefix(5))
  {
    var t, n := GroupTokens(), GroupPool().nodes;
    assert GroupPrefix(1).Push(n[1]) == GroupPrefix(2);
    assert GroupPrefix(2).Push(n[2]) == GroupPrefix(3);
    assert GroupPrefix(3).Push(n[3]) == GroupPrefix(4);
    assert GroupPrefix(4).Push(n[4]) == GroupPrefix(5);
    assert ParseLoop(t, 6, GroupPrefix(2), AddSub, n[2]) == Parsed(Some(n[2]), 7, GroupPrefix(2));
    assert ParseExpr(t, 8, GroupPrefix(4), MulDiv) == Parsed(Some(n[4]), 9, GroupPrefix(4));
    assert ParseLoop(t, 7, GroupPrefix(3), Lowest, n[3]) == Parsed(Some(n[5]), 9, GroupPrefix(5));
    assert ParseLoop(t, 4, GroupPrefix(1), Lowest, n[1]) == Parsed(Some(n[5]), 9, GroupPrefix(5));
  }

  lemma ParseGroup()
    ensures ParseAst(GroupTokens()) == GroupPool()
  {
    var t, n := GroupTokens(), GroupPool().nodes;
    ParseGroupInside();
    assert NewPool().Push(n[0]) == GroupPrefix(1);
    assert GroupPrefix(5).Push(n[5]) == GroupPrefix(6);
    assert GroupPrefix(6).Push(n[6]) == GroupPool();
    assert ParseLoop(t, 1, NewPool(), Lowest, n[0]) == Parsed(Some(n[6]), 9, GroupPrefix(6));
  }

  lemma GroupDisplayable(src: string)
    requires Spells(src, "10 * (20 + 30) * 20")
    ensures Displayable(GroupPool(), src)
  {
  }

  lemma ShowGroupSum(src: string)
    requires Spells(src, "10 * (20 + 30) * 20")
    ensures Displayable(GroupPool(), src)
    ensures DisplayExpr(GroupPool(), GroupPool().nodes[3], 3, src) == "( + 20 30 )"
  {
    GroupDisplayable(src);
    assert src[6..8] == "20" && src[11..13] == "30" && src[9..10] == "+";
  }

  lemma ShowGroupInner(src: string)
    requires Spells(src, "10 * (20 + 30) * 20")
    ensures Displayable(GroupPool(), src)
    ensures DisplayExpr(GroupPool(), GroupPool().nodes[5], 5, src) == "( * ( + 20 30 ) 20 )"
  {
    ShowGroupSum(src);
    assert src[17..19] == "20" && src[15..16] == "*";
  }

  /** The root's rendering, assembled from its parts. */
  lemma GroupText()
    ensures "( " + "*" + " " + "10" + " " + "( * ( + 20 30 ) 20 )" + " )" == "( * 10 ( * ( + 20 30 ) 20 ) )"
  {
    assert "( " + "*" + " " + "10" + " " == "( * 10 ";
  }

  lemma ShowGroup(src: string)
    requires Spells(src, "10 * (20 + 30) * 20")
    ensures Displayable(GroupPool(), src)
    ensures DisplayAst(GroupPool(), src) == Ok("( * 10 ( * ( + 20 30 ) 20 ) )")
  {
    ShowGroupInner(src);
    var pool := GroupPool();
    assert src[0..2] == "10" && src[3..4] == "*";
    GroupText();
    assert DisplayExpr(pool, pool.nodes[6], 6, src) == "( * 10 ( * ( + 20 30 ) 20 ) )";
  }

  lemma RenderGroup(src: string)
    requires Spells(src, "10 * (20 + 30) * 20")
    ensures Tokens(src) == Ok(GroupTokens())
    ensures ParseAst(GroupTokens()) == GroupPool()
    ensures Displayable(GroupPool(), src)
    ensures DisplayAst(GroupPool(), src) == Ok("( * 10 ( * ( + 20 30 ) 20 ) )")
  {
    LexGroup(src);
    ParseGroup();
    ShowGroup(src);
  }

  /** `10 +`: the missing right operand ends parsing; the left operand was
      already pushed, so it is what `display_ast` shows. */
  lemma ParseDangling()
    ensures ParseAst([Token(Num, 0, 2), Token(Add, 3, 1)]) == AstPool([Literal(Token(Num, 0, 2))])
  {
    var t := [Token(Num, 0, 2), Token(Add, 3, 1)];
    var p1 := AstPool([Literal(t[0])]);
    assert NewPool().Push(Literal(t[0])) == p1;
    assert ParseLoop(t, 1, NewPool(), Lowest, Literal(t[0])) == Parsed(None, 2, p1);
  }

  lemma RenderDangling(src: string)
    requires Spells(src, "10 +")
    ensures Tokens(src) == Ok([Token(Num, 0, 2), Token(Add, 3, 1)])
    ensures ParseAst([Token(Num, 0, 2), Token(Add, 3, 1)]) == AstPool([Literal(Token(Num, 0, 2))])
    ensures DisplayAst(AstPool([Literal(Token(Num, 0, 2))]), src) == Ok("10")
  {
    ParseDangling();
    var t := [Token(Num, 0, 2), Token(Add, 3, 1)];
    assert Lexes(src, t);
    TokenizeUnique(src, 0, t);
    assert src[0..2] == "10";
  }

  /** Nothing to parse: the pool stays empty and rendering fails. */
  lemma RenderNothing(src: string)
    requires Spells(src, "   ")
    ensures Tokens(src) == Ok([])
    ensures ParseAst([]) == NewPool()
    ensures DisplayAst(NewPool(), src) == Err(TreeWasEmpty)
  {
    assert Lexes(src, []);
    TokenizeUnique(src, 0, []);
  }
}

=== FILE: lex.dfy ===
/**
  The tokenizer of src/lex.rs.

  A `Lexer` is a cursor over a source text.  Each call of `next` skips plain
  spaces and emits one `Token`, a `{kind, start, length}` span that never owns
  its text.  Offsets count characters, so the model is the lexer on ASCII
  sources, where a character index and a byte offset coincide.
*/
module Lex {
  import opened Wrappers

  datatype Kind = Add | Sub | Mul | Div | Num | Ident | LParen | RParen

  /** A span `[start, start + length)` of the source, classified by `kind`. */
  datatype Token = Token(kind: Kind, start: nat, length: nat) {
    /** One past the last offset of the span. */
    function End(): nat { start + length }
  }

  /** The lexer state: the cursor `ix` and the source it walks over. */
  datatype Lexer = Lexer(ix: nat, src: string)

  /** The ways a call of `next` can fail; the source halts the process on both. */
  datatype LexError =
    | UnknownChar(c: char, offset: nat)  // the `todo!()` on an unrecognised character
    | Underflow(offset: nat)             // a `usize` subtraction that panics in a debug build

  /** One call of `next`: the end of the tokens, one token together with the
      advanced lexer, or an unrecoverable failure. */
  datatype Step = Done(lexer: Lexer) | Emit(token: Token, lexer: Lexer) | Fail(error: LexError)

  /** The cursor never passes the end of the source (otherwise `&src[ix..]` panics). */
  predicate Valid(lx: Lexer) {
    lx.ix <= |lx.src|
  }

  /** `Lexer::new`: a fresh lexer over `src`. */
  function New(src: string): (lx: Lexer)
    ensures Valid(lx) && lx.src == src
    ensures lx.ix == 0
  {
    Lexer(0, src)
  }

  // ---------------------------------------------------------------------------
  // Character classes
  // ---------------------------------------------------------------------------

  /** The `'0'..='9'` pattern. */
  predicate IsDigit(c: char) {
    '0' <= c <= '9'
  }

  /** `char::is_alphabetic`, restricted to ASCII. */
  predicate IsLetter(c: char) {
    'a' <= c <= 'z' || 'A' <= c <= 'Z'
  }

  /** The kind of a one-character operator or parenthesis. */
  function PunctKind(c: char): Option<Kind> {
    match c
    case '+' => Some(Add)
    case '-' => Some(Sub)
    case '*' => Some(Mul)
    case '/' => Some(Div)
    case '(' => Some(LParen)
    case ')' => Some(RParen)
    case _ => None
  }

  /** A character no token can start with and that is not skipped either. */
  predicate IsUnknown(c: char) {
    c != ' ' && PunctKind(c).None? && !IsDigit(c) && !IsLetter(c)
  }

  // ---------------------------------------------------------------------------
  // Scanning helpers
  // ---------------------------------------------------------------------------

  /** `skip_whitespace`: the first offset at or after `ix` that does not hold `' '`. */
  function SkipWhitespace(src: string, ix: nat): (j: nat)
    requires ix <= |src|
    ensures ix <= j <= |src|
    ensures forall k :: ix <= k < j ==> src[k] == ' '
    ensures j == |src| || src[j] != ' '
    decreases |src| - ix
  {
    if ix < |src| && src[ix] == ' ' then SkipWhitespace(src, ix + 1) else ix
  }

  /** `str::find`: the index of the first character of `s` satisfying `p`. */
  function Find(s: string, p: char -> bool): (r: Option<nat>)
    ensures r.Some? ==> r.value < |s| && p(s[r.value])
    ensures r.Some? ==> forall k :: 0 <= k < r.value ==> !p(s[k])
    ensures r.None? ==> forall k :: 0 <= k < |s| ==> !p(s[k])
    decreases |s|
  {
    if |s| == 0 then None
    else if p(s[0]) then Some(0)
    else
      match Find(s[1..], p)
      case Some(k) => Some(k + 1)
      case None => None
  }

  /** The characters of `[start, end)` satisfy `p`, and `end` is the end of the
      source or a character that does not. */
  predicate MaximalRun(src: string, start: nat, end: nat, p: char -> bool)
    requires end <= |src|
  {
    && (forall k :: start <= k < end ==> p(src[k]))
    && (end == |src| || !p(src[end]))
  }

  /** Reference definition of a run: the end of the maximal run of `p` from `i`. */
  function RunEnd(src: string, i: nat, p: char -> bool): (j: nat)
    requires i <= |src|
    ensures i <= j <= |src|
    ensures MaximalRun(src, i, j, p)
    decreases |src| - i
  {
    if i < |src| && p(src[i]) then RunEnd(src, i + 1, p) else i
  }

  /** Searching the rest of the source for the first character outside the run
      finds the run's length, measured from `i`. */
  lemma FindIsRunLength(src: string, i: nat, p: char -> bool, q: char -> bool)
    requires i <= |src|
    requires forall c :: q(c) == !p(c)
    ensures Find(src[i..], q).GetOr(|src| - i) == RunEnd(src, i, p) - i
  {
    var rest := src[i..];
    var j := RunEnd(src, i, p);
    var f := Find(rest, q);
    if j < |src| {
      assert q(rest[j - i]);
    }
  }

  // ---------------------------------------------------------------------------
  // Tokens
  // ---------------------------------------------------------------------------

  /** What a token of each kind covers: `Num` and `Ident` a maximal run of
      digits or letters, operators and parentheses their single character. */
  predicate Classified(src: string, t: Token) {
    && 1 <= t.length
    && t.End() <= |src|
    && match t.kind
       case Num => MaximalRun(src, t.start, t.End(), IsDigit)
       case Ident => MaximalRun(src, t.start, t.End(), IsLetter)
       case _ => t.length == 1 && PunctKind(src[t.start]) == Some(t.kind)
  }

  /** The token that runs from `start` over the characters satisfying `p`
      (the `Numeric` arm, lex.rs:122-127): the length is the offset, within
      the rest of the source, of the first character outside the run. */
  function ScanRun(src: string, start: nat, kind: Kind, p: char -> bool): (r: Step)
    requires start < |src| && p(src[start])
    ensures r.Emit? && r.token.start == start && r.token.kind == kind
    ensures r.token.End() == RunEnd(src, start, p)
    ensures r.lexer == Lexer(r.token.End(), src)
  {
    var rest := src[start..];
    var tokLen := Find(rest, c => !p(c)).GetOr(|rest|);
    FindIsRunLength(src, start, p, c => !p(c));
    Emit(Token(kind, start, tokLen), Lexer(start + 1 + (tokLen - 1), src))
  }

  /** `Iterator::next`, with the identifier length corrected (see
      `NextAsWritten` for the code as written): skip spaces, then emit the
      token that starts at the first non-space character. */
  function Next(lx: Lexer): (r: Step)
    requires Valid(lx)
    ensures var s := SkipWhitespace(lx.src, lx.ix);
      && (r.Done? <==> s == |lx.src|)
      && (r.Done? ==> r.lexer == Lexer(|lx.src|, lx.src))
      && (r.Emit? ==> r.token.start == s && Classified(lx.src, r.token))
      && (r.Emit? ==> r.lexer == Lexer(r.token.End(), lx.src))
      && (r.Fail? <==> s < |lx.src| && IsUnknown(lx.src[s]))
      && (r.Fail? ==> r.error == UnknownChar(lx.src[s], s))
  {
    var start := SkipWhitespace(lx.src, lx.ix);
    var rest := lx.src[start..];
    if |rest| == 0 then Done(Lexer(start, lx.src))
    else
      var c := rest[0];
      match PunctKind(c)
      case Some(kind) => Emit(Token(kind, start, 1), Lexer(start + 1, lx.src))
      case None =>
        if IsDigit(c) then ScanRun(lx.src, start, Num, IsDigit)
        else if IsLetter(c) then ScanRun(lx.src, start, Ident, IsLetter)
        else Fail(UnknownChar(c, start))
  }

  /** The token `next` emits, by the first non-space character: an operator
      or parenthesis of length 1, or the whole digit or letter run. */
  lemma NextToken(lx: Lexer)
    requires Valid(lx)
    requires var s := SkipWhitespace(lx.src, lx.ix); s < |lx.src| && !IsUnknown(lx.src[s])
    ensures var s, src := SkipWhitespace(lx.src, lx.ix), lx.src;
      && Next(lx).Emit?
      && (PunctKind(src[s]).Some? ==> Next(lx).token == Token(PunctKind(src[s]).value, s, 1))
      && (IsDigit(src[s]) ==> Next(lx).token == Token(Num, s, RunEnd(src, s, IsDigit) - s))
      && (IsLetter(src[s]) ==> Next(lx).token == Token(Ident, s, RunEnd(src, s, IsLetter) - s))
      && Next(lx).lexer.ix == Next(lx).token.End()
  {
    var s, src := SkipWhitespace(lx.src, lx.ix), lx.src;
    var t := Next(lx).token;
    if IsDigit(src[s]) {
      RunEndUnique(src, s, t.End(), IsDigit);
    } else if IsLetter(src[s]) {
      RunEndUnique(src, s, t.End(), IsLetter);
    }
  }

  /** A maximal run from `i` ends where `RunEnd` says. */
  lemma RunEndUnique(src: string, i: nat, j: nat, p: char -> bool)
    requires i <= j <= |src| && MaximalRun(src, i, j, p)
    ensures RunEnd(src, i, p) == j
  {
  }

  /** Once `next` has returned `None`, every later call returns `None` too and
      leaves the cursor where it is. */
  lemma DoneIsFinal(lx: Lexer)
    requires Valid(lx) && Next(lx).Done?
    ensures Valid(Next(lx).lexer)
    ensures Next(Next(lx).lexer) == Next(lx)
  {
  }

  /** The `Ident` arm as written (lex.rs:112-120): `find` gives an offset
      relative to the rest of the source, yet `start`, an absolute offset, is
      subtracted from it: unless the run reaches the end of the source, the
      length comes out as the run length less `start`, and a subtraction below
      zero panics in a debug build. */
  function IdentAsWritten(src: string, start: nat): (r: Step)
    requires start < |src| && IsLetter(src[start])
    ensures var run, tail := RunEnd(src, start, IsLetter), RunEnd(src, start, IsLetter) == |src|;
      && (r.Fail? <==> !tail && run - start <= start)
      && (r.Fail? ==> r.error == Underflow(start))
      && (r.Emit? ==> r.token.kind == Ident && r.token.start == start)
      && (r.Emit? ==> r.token.length == if tail then |src| - start else run - 2 * start)
      && (r.Emit? ==> r.lexer == Lexer(r.token.End(), src))
  {
    var rest := src[start..];
    FindIsRunLength(src, start, IsLetter, c => !IsLetter(c));
    var end := Find(rest, c => !IsLetter(c)).GetOr(|src|);
    if end < start then Fail(Underflow(start))            // `end - start`
    else
      var tokSize := end - start;
      if tokSize < 1 then Fail(Underflow(start))          // `tok_size - c.len_utf8()`
      else Emit(Token(Ident, start, tokSize), Lexer(start + 1 + (tokSize - 1), src))
  }

  /** `Iterator::next` exactly as written: `Next` except on identifiers. */
  function NextAsWritten(lx: Lexer): (r: Step)
    requires Valid(lx)
    ensures var s := SkipWhitespace(lx.src, lx.ix);
      (s == |lx.src| || !IsLetter(lx.src[s])) ==> r == Next(lx)
    ensures r.Emit? ==> lx.ix < r.lexer.ix <= |lx.src| && r.lexer.src == lx.src
  {
    var start := SkipWhitespace(lx.src, lx.ix);
    if start < |lx.src| && IsLetter(lx.src[start]) then IdentAsWritten(lx.src, start)
    else Next(lx)
  }

  /** The code as written emits the right identifier token when the identifier
      starts at offset 0 or its letter run reaches the end of the source. */
  lemma IdentAsWrittenAgrees(lx: Lexer)
    requires Valid(lx)
    requires var s := SkipWhitespace(lx.src, lx.ix);
      s < |lx.src| && IsLetter(lx.src[s]) && (s == 0 || RunEnd(lx.src, s, IsLetter) == |lx.src|)
    ensures NextAsWritten(lx) == Next(lx)
    ensures var s := SkipWhitespace(lx.src, lx.ix);
      NextAsWritten(lx).Emit? && NextAsWritten(lx).token == Token(Ident, s, RunEnd(lx.src, s, IsLetter) - s)
  {
    var src, s := lx.src, SkipWhitespace(lx.src, lx.ix);
    FindIsRunLength(src, s, IsLetter, c => !IsLetter(c));
    NextToken(lx);
  }

  /** A single-letter identifier that neither starts the source nor ends it
      makes the code as written subtract past zero: `a + b * c` fails at `b`. */
  lemma IdentAsWrittenUnderflows()
    ensures NextAsWritten(Lexer(4, "a + b * c")) == Fail(Underflow(4))
    ensures Next(Lexer(4, "a + b * c")) == Emit(Token(Ident, 4, 1), Lexer(5, "a + b * c"))
  {
    var src := "a + b * c";
    assert SkipWhitespace(src, 4) == 4;
    assert src[4..] == "b * c";
    assert Find("b * c", c => !IsLetter(c)) == Some(1) by {
      assert Find(" * c", c => !IsLetter(c)) == Some(0);
    }
    NextEmits(src, 4, Token(Ident, 4, 1));
  }

  /** An identifier in the middle of the source gets too short a span from the
      code as written, and the cursor lands inside the identifier. */
  lemma IdentAsWrittenTruncates()
    ensures NextAsWritten(Lexer(1, "+abc+")) == Emit(Token(Ident, 1, 2), Lexer(3, "+abc+"))
    ensures Next(Lexer(1, "+abc+")) == Emit(Token(Ident, 1, 3), Lexer(4, "+abc+"))
  {
    var src := "+abc+";
    assert SkipWhitespace(src, 1) == 1;
    assert src[1..] == "abc+";
    assert Find("abc+", c => !IsLetter(c)) == Some(3) by {
      assert Find("+", c => !IsLetter(c)) == Some(0);
      assert "abc+"[1..] == "bc+" && "bc+"[1..] == "c+" && "c+"[1..] == "+";
    }
    NextEmits(src, 1, Token(Ident, 1, 3));
  }

  // ---------------------------------------------------------------------------
  // The whole token sequence
  // ---------------------------------------------------------------------------

  /** Every offset of `[a, b)` holds a space. */
  predicate Blank(src: string, a: nat, b: nat) {
    forall k :: a <= k < b ==> k < |src| && src[k] == ' '
  }

  /** The tokens `ts` lie in order from `ix` on: only spaces come before the
      first, between each token and the next, and after the last. */
  predicate Layout(src: string, ix: nat, ts: seq<Token>) {
    if |ts| == 0 then ix <= |src| && Blank(src, ix, |src|)
    else
      && ix <= ts[0].start && Blank(src, ix, ts[0].start)
      && (forall i :: 0 <= i < |ts| - 1 ==>
            ts[i].End() <= ts[i + 1].start && Blank(src, ts[i].End(), ts[i + 1].start))
      && ts[|ts| - 1].End() <= |src| && Blank(src, ts[|ts| - 1].End(), |src|)
  }

  /** A token after the spaces at `ix`, followed by tokens laid out from its end. */
  lemma LayoutCons(src: string, ix: nat, t: Token, ts: seq<Token>)
    requires ix <= t.start && Blank(src, ix, t.start) && Layout(src, t.End(), ts)
    ensures Layout(src, ix, [t] + ts)
  {
    var all := [t] + ts;
    assert forall i :: 1 <= i < |all| ==> all[i] == ts[i - 1];
  }

  /** The tokens after the first are laid out from the first one's end. */
  lemma LayoutTail(src: string, ix: nat, ts: seq<Token>)
    requires Layout(src, ix, ts) && |ts| > 0
    ensures Layout(src, ts[0].End(), ts[1..])
  {
    var tail := ts[1..];
    assert forall i :: 0 <= i < |tail| ==> tail[i] == ts[i + 1];
  }

  /** The tokens that repeated calls of `next` produce from cursor `ix` until
      the first `None`, or the failure that stops them. */
  function Tokenize(src: string, ix: nat): (r: Result<seq<Token>, LexError>)
    requires ix <= |src|
    ensures r.Ok? ==> Layout(src, ix, r.value)
    ensures r.Ok? ==> forall i :: 0 <= i < |r.value| ==> Classified(src, r.value[i])
    ensures r.Ok? <==> forall k :: ix <= k < |src| ==> !IsUnknown(src[k])
    ensures r.Err? ==> r.error.UnknownChar? && ix <= r.error.offset < |src|
    ensures r.Err? ==> src[r.error.offset] == r.error.c && IsUnknown(r.error.c)
    ensures r.Err? ==> forall k :: ix <= k < r.error.offset ==> !IsUnknown(src[k])
    decreases |src| - ix
  {
    match Next(Lexer(ix, src))
    case Done(_) => Ok([])
    case Emit(t, lx) =>
      (match Tokenize(src, lx.ix)
       case Ok(ts) =>
         LayoutCons(src, ix, t, ts);
         TokenKnown(src, ix, t);
         Ok([t] + ts)
       case Err(e) =>
         TokenKnown(src, ix, t);
         Err(e))
    case Fail(e) => Err(e)
  }

  /** No character from `ix` to the end of a classified token after spaces is
      unknown. */
  lemma TokenKnown(src: string, ix: nat, t: Token)
    requires ix <= t.start && Blank(src, ix, t.start) && Classified(src, t)
    ensures forall k :: ix <= k < t.End() ==> !IsUnknown(src[k])
  {
    forall k | ix <= k < t.End()
      ensures !IsUnknown(src[k])
    {
    }
  }

  /** Skipping spaces stops at the first non-space character. */
  lemma SkipWhitespaceTo(src: string, ix: nat, j: nat)
    requires ix <= j <= |src| && Blank(src, ix, j)
    requires j == |src| || src[j] != ' '
    ensures SkipWhitespace(src, ix) == j
  {
  }

  /** Two classified tokens that start at the same offset are the same token. */
  lemma ClassifiedUnique(src: string, t1: Token, t2: Token)
    requires Classified(src, t1) && Classified(src, t2) && t1.start == t2.start
    ensures t1 == t2
  {
    if t1.kind == Num || t1.kind == Ident {
      var p := if t1.kind == Num then IsDigit else IsLetter;
      RunEndUnique(src, t1.start, t1.End(), p);
      RunEndUnique(src, t2.start, t2.End(), p);
    }
  }

  /** The converse of `Tokenize`'s contract: a sequence of classified tokens
      laid out from `ix` is exactly what the lexer produces from `ix`. */
  lemma {:induction false} TokenizeUnique(src: string, ix: nat, ts: seq<Token>)
    requires ix <= |src| && Layout(src, ix, ts)
    requires forall i :: 0 <= i < |ts| ==> Classified(src, ts[i])
    ensures Tokenize(src, ix) == Ok(ts)
    decreases |ts|
  {
    if |ts| == 0 {
      SkipWhitespaceTo(src, ix, |src|);
    } else {
      var t, tail := ts[0], ts[1..];
      NextEmits(src, ix, t);
      LayoutTail(src, ix, ts);
      TokenizeUnique(src, t.End(), tail);
      assert ts == [t] + tail;
    }
  }

  /** After spaces, `next` emits the classified token there and moves past it. */
  lemma NextEmits(src: string, ix: nat, t: Token)
    requires ix <= t.start && Blank(src, ix, t.start) && Classified(src, t)
    ensures Next(Lexer(ix, src)) == Emit(t, Lexer(t.End(), src))
  {
    SkipWhitespaceTo(src, ix, t.start);
    ClassifiedUnique(src, Next(Lexer(ix, src)).token, t);
  }

  /** The lexer's output from `ix` is the classified token after the spaces
      at `ix`, followed by the output from just past that token. */
  lemma TokenizeCons(src: string, ix: nat, t: Token, ts: seq<Token>)
    requires ix <= t.start && Blank(src, ix, t.start) && Classified(src, t)
    requires Tokenize(src, t.End()) == Ok(ts)
    ensures Tokenize(src, ix) == Ok([t] + ts)
  {
    var all := [t] + ts;
    LayoutCons(src, ix, t, ts);
    assert forall i :: 1 <= i < |all| ==> all[i] == ts[i - 1];
    TokenizeUnique(src, ix, all);
  }

  /** `Lexer::new(src).collect()`, with the corrected identifier step. */
  function Tokens(src: string): (r: Result<seq<Token>, LexError>)
    ensures r.Ok? ==> Layout(src, 0, r.value)
    ensures r.Ok? <==> forall k :: 0 <= k < |src| ==> !IsUnknown(src[k])
  {
    Tokenize(src, 0)
  }

  /** The tokens repeated calls of `next` as written produce from cursor `ix`
      until the first `None`, or the failure that stops them. */
  function TokenizeAsWritten(src: string, ix: nat): Result<seq<Token>, LexError>
    requires ix <= |src|
    decreases |src| - ix
  {
    match NextAsWritten(Lexer(ix, src))
    case Done(_) => Ok([])
    case Emit(t, lx) =>
      (match TokenizeAsWritten(src, lx.ix)
       case Ok(ts) => Ok([t] + ts)
       case Err(e) => Err(e))
    case Fail(e) => Err(e)
  }

  /** An identifier the code as written shortens is never followed by a
      successful call: the cursor lands inside the letter run, and the next
      call subtracts past zero there. */
  lemma IdentAsWrittenStalls(src: string, s: nat)
    requires s < |src| && IsLetter(src[s])
    requires 0 < s && RunEnd(src, s, IsLetter) < |src|
    ensures var r := IdentAsWritten(src, s);
      || r.Fail?
      || (r.Emit? && r.lexer.ix <= |src| && NextAsWritten(r.lexer) == Fail(Underflow(r.lexer.ix)))
  {
    var r := IdentAsWritten(src, s);
    if r.Emit? {
      var run, c := RunEnd(src, s, IsLetter), r.lexer.ix;
      assert c == run - s && s < c < run;
      SkipWhitespaceTo(src, c, c);
      RunEndUnique(src, c, run, IsLetter);
    }
  }

  /** The corrected lexer is the code as written wherever the latter does not
      panic: from any cursor, collecting as written either fails with
      `Underflow` or yields exactly what `Tokenize` yields. */
  lemma {:induction false} AsWrittenFailsOrAgrees(src: string, ix: nat)
    requires ix <= |src|
    ensures var w := TokenizeAsWritten(src, ix);
      w == Tokenize(src, ix) || (w.Err? && w.error.Underflow?)
    decreases |src| - ix
  {
    var lx := Lexer(ix, src);
    var s := SkipWhitespace(src, ix);
    if s < |src| && IsLetter(src[s]) && s != 0 && RunEnd(src, s, IsLetter) < |src| {
      AsWrittenStalls(src, ix);
    } else {
      if s < |src| && IsLetter(src[s]) {
        IdentAsWrittenAgrees(lx);
      }
      var step := Next(lx);
      assert NextAsWritten(lx) == step;
      if step.Emit? {
        var j := step.lexer.ix;
        AsWrittenFailsOrAgrees(src, j);
        var w := TokenizeAsWritten(src, j);
        assert TokenizeAsWritten(src, ix) == if w.Ok? then Ok([step.token] + w.value) else w;
      }
    }
  }

  /** Where the identifier arm as written shortens a token, collecting as
      written fails with `Underflow`, at the identifier or just after it. */
  lemma AsWrittenStalls(src: string, ix: nat)
    requires ix <= |src|
    requires var s := SkipWhitespace(src, ix);
      s < |src| && IsLetter(src[s]) && s != 0 && RunEnd(src, s, IsLetter) < |src|
    ensures TokenizeAsWritten(src, ix).Err? && TokenizeAsWritten(src, ix).error.Underflow?
  {
    var s := SkipWhitespace(src, ix);
    var r := IdentAsWritten(src, s);
    IdentAsWrittenStalls(src, s);
    assert NextAsWritten(Lexer(ix, src)) == r;
    if r.Emit? {
      assert TokenizeAsWritten(src, r.lexer.ix) == Err(Underflow(r.lexer.ix));
    }
  }

  /** Laid-out tokens are in strictly increasing, non-overlapping order. */
  lemma {:induction false} LayoutOrdered(src: string, ix: nat, ts: seq<Token>)
    requires Layout(src, ix, ts)
    requires forall i :: 0 <= i < |ts| ==> 1 <= ts[i].length
    ensures forall i :: 0 <= i < |ts| ==> ix <= ts[i].start && ts[i].End() <= |src|
    ensures forall i, j :: 0 <= i < j < |ts| ==> ts[i].End() <= ts[j].start
    decreases |ts|
  {
    if |ts| > 0 {
      var tail := ts[1..];
      LayoutTail(src, ix, ts);
      LayoutOrdered(src, ts[0].End(), tail);
      if |tail| == 0 {
        assert ts[0].End() <= |src|;
      }
      forall i, j | 0 <= i < j < |ts|
        ensures ts[i].End() <= ts[j].start
      {
        if i > 0 {
          assert tail[i - 1] == ts[i] && tail[j - 1] == ts[j];
        } else {
          assert tail[j - 1] == ts[j];
        }
      }
    }
  }

  /** `DisplayToken`: the text of a token, sliced out of the source. */
  function TokenText(src: string, t: Token): (text: string)
    requires t.End() <= |src|
    ensures |text| == t.length
    ensures forall i :: 0 <= i < |text| ==> text[i] == src[t.start + i]
  {
    src[t.start..t.End()]
  }

  /** The text of a classified token: the operator or parenthesis character of
      its kind, or a non-empty run of digits or of letters. */
  lemma ClassifiedText(src: string, t: Token)
    requires Classified(src, t)
    ensures var text := TokenText(src, t);
      && 1 <= |text|
      && (t.kind == Num ==> forall i :: 0 <= i < |text| ==> IsDigit(text[i]))
      && (t.kind == Ident ==> forall i :: 0 <= i < |text| ==> IsLetter(text[i]))
      && (t.kind != Num && t.kind != Ident ==> |text| == 1 && PunctKind(text[0]) == Some(t.kind))
  {
  }
}

=== FILE: parse.dfy ===
/**
  The parser of src/parse.rs: precedence climbing over a token sequence, with
  every node stored in an append-only arena, the `AstPool`, and children
  referred to by their index in it.

  The token stream is a `seq<Token>` with a position: peeking is reading
  `toks[pos]`, consuming is moving `pos` on.  As in the code, operators of equal
  precedence nest to the right, and a `)` is consumed by the innermost
  operator loop that meets it.
*/
module Parse {
  import opened Wrappers
  import opened Lex

  /** An index into an `AstPool`. */
  datatype AstRef = AstRef(index: nat)

  datatype AstExpr =
    | Literal(token: Token)
    | BinOp(left: AstRef, op: Token, right: AstRef)

  /** The arena: nodes are only ever appended. */
  datatype AstPool = AstPool(nodes: seq<AstExpr>) {

    function Len(): nat { |nodes| }

    /** `push`: appends `e`, leaving every existing node where it was. */
    function Push(e: AstExpr): (p: AstPool)
      ensures nodes <= p.nodes
      ensures p.Len() == Len() + 1 && p.nodes[Len()] == e
    {
      AstPool(nodes + [e])
    }
  }

  /** `AstPool::new`. */
  function NewPool(): (p: AstPool)
    ensures p.Len() == 0
  {
    AstPool([])
  }

  /** Declared in this order, so the derived ordering has Lowest < AddSub < MulDiv. */
  datatype Precedence = Lowest | AddSub | MulDiv

  function Rank(p: Precedence): nat {
    match p
    case Lowest => 0
    case AddSub => 1
    case MulDiv => 2
  }

  /** The derived `<` on `Precedence`. */
  predicate Below(a: Precedence, b: Precedence) {
    Rank(a) < Rank(b)
  }

  /** `is_operator`: one of the four binary operators. */
  predicate IsOperator(t: Token) {
    t.kind in {Add, Sub, Mul, Div}
  }

  /** An operator token is exactly a token whose text is one of the four
      operator characters. */
  lemma OperatorText(src: string, t: Token)
    requires Classified(src, t)
    ensures IsOperator(t) <==> TokenText(src, t) in ["+", "-", "*", "/"]
  {
    ClassifiedText(src, t);
    var text := TokenText(src, t);
    if IsOperator(t) {
      assert text == [text[0]];
    }
  }

  /** `get_precedence`: defined exactly on the operators, with `*` and `/`
      binding tighter than `+` and `-`. */
  function GetPrecedence(t: Token): (r: Option<Precedence>)
    ensures r.Some? <==> IsOperator(t)
    ensures r.Some? ==> Below(Lowest, r.value)
    ensures r.Some? ==> (r.value == MulDiv <==> t.kind in {Mul, Div})
  {
    match t.kind
    case Add => Some(AddSub)
    case Sub => Some(AddSub)
    case Mul => Some(MulDiv)
    case Div => Some(MulDiv)
    case _ => None
  }

  /** The ordering of the precedence classes. */
  lemma PrecedenceOrder()
    ensures Below(Lowest, AddSub) && Below(AddSub, MulDiv)
    ensures forall a, b :: Below(a, b) ==> !Below(b, a) && a != b
    ensures forall a, b, c :: Below(a, b) && Below(b, c) ==> Below(a, c)
  {
  }

  // ---------------------------------------------------------------------------
  // The arena invariant
  // ---------------------------------------------------------------------------

  /** A node that may sit at index `at`: a literal never holds `(`, and a binary
      node holds an operator and children stored before it, left before right. */
  predicate Linked(e: AstExpr, at: nat) {
    match e
    case Literal(t) => t.kind != LParen
    case BinOp(l, op, r) => l.index < r.index < at && IsOperator(op)
  }

  /** Every token a node holds is one of `toks`. */
  predicate TokensFrom(e: AstExpr, toks: seq<Token>) {
    match e
    case Literal(t) => t in toks
    case BinOp(_, op, _) => op in toks
  }

  predicate NodeOk(e: AstExpr, at: nat, toks: seq<Token>) {
    Linked(e, at) && TokensFrom(e, toks)
  }

  /** The arena invariant of a pool built from `toks`. */
  predicate PoolOk(pool: AstPool, toks: seq<Token>) {
    forall i :: 0 <= i < pool.Len() ==> NodeOk(pool.nodes[i], i, toks)
  }

  /** What one call of `parse_expr` leaves: its result, the position of the
      next unconsumed token, and the pool. */
  datatype Parsed = Parsed(expr: Option<AstExpr>, pos: nat, pool: AstPool)

  // ---------------------------------------------------------------------------
  // parse_expr and its operator loop
  // ---------------------------------------------------------------------------

  /** `parse_expr` with floor `prec`, reading `toks` from `pos`. */
  function ParseExpr(toks: seq<Token>, pos: nat, pool: AstPool, prec: Precedence): (r: Parsed)
    requires pos <= |toks|
    ensures pos <= r.pos <= |toks|
    ensures pool.nodes <= r.pool.nodes
    ensures pos == |toks| ==> r == Parsed(None, pos, pool)
    ensures r.expr.Some? ==> pos < r.pos
    ensures r.expr.None? ==> r.pos == |toks|
    decreases |toks| - pos, 1
  {
    if pos == |toks| then Parsed(None, pos, pool)
    else
      var token := toks[pos];
      if token.kind == LParen then ParseExpr(toks, pos + 1, pool, Lowest)
      else ParseLoop(toks, pos + 1, pool, prec, Literal(token))
  }

  /** The operator-extension loop of `parse_expr`, with `lhs` built so far. */
  function ParseLoop(toks: seq<Token>, pos: nat, pool: AstPool, prec: Precedence, lhs: AstExpr): (r: Parsed)
    requires pos <= |toks|
    ensures pos <= r.pos <= |toks|
    ensures pool.nodes <= r.pool.nodes
    ensures r.expr.None? ==> r.pos == |toks|
    decreases |toks| - pos, 0
  {
    if pos == |toks| then Parsed(Some(lhs), pos, pool)
    else
      var next := toks[pos];
      if next.kind == RParen then Parsed(Some(lhs), pos + 1, pool)
      else if !IsOperator(next) then Parsed(Some(lhs), pos, pool)
      else
        var encountered := GetPrecedence(next).value;
        if Below(encountered, prec) then Parsed(Some(lhs), pos, pool)
        else
          var op := next;
          var lhsIx := pool.Len();
          var pool1 := pool.Push(lhs);
          var rhs := ParseExpr(toks, pos + 1, pool1, encountered);
          if rhs.expr.None? then Parsed(None, rhs.pos, rhs.pool)
          else
            var rhsIx := rhs.pool.Len();
            var pool2 := rhs.pool.Push(rhs.expr.value);
            ParseLoop(toks, rhs.pos, pool2, prec, BinOp(AstRef(lhsIx), op, AstRef(rhsIx)))
  }

  /** The stop conditions of the operator loop: it returns `lhs` untouched
      without consuming exactly at the end of input, at a token that is neither
      an operator nor `)`, or at an operator below the floor; it consumes a `)`
      and stops. */
  lemma LoopStops(toks: seq<Token>, pos: nat, pool: AstPool, prec: Precedence, lhs: AstExpr)
    requires pos <= |toks|
    ensures var r := ParseLoop(toks, pos, pool, prec, lhs);
      && (r.pos == pos <==>
            pos == |toks|
            || (toks[pos].kind != RParen
                && (!IsOperator(toks[pos]) || Below(GetPrecedence(toks[pos]).value, prec))))
      && (r.pos == pos ==> r == Parsed(Some(lhs), pos, pool))
      && (pos < |toks| && toks[pos].kind == RParen ==> r == Parsed(Some(lhs), pos + 1, pool))
  {
  }

  // ---------------------------------------------------------------------------
  // parse_ast
  // ---------------------------------------------------------------------------

  /** The `while let` loop of `parse_ast`: parse one top-level expression at
      floor `Lowest` and push it, until `parse_expr` yields nothing. */
  function ParseTop(toks: seq<Token>, pos: nat, pool: AstPool): (r: AstPool)
    requires pos <= |toks|
    ensures pool.nodes <= r.nodes
    ensures pos == |toks| ==> r == pool
    decreases |toks| - pos
  {
    var e := ParseExpr(toks, pos, pool, Lowest);
    match e.expr
    case None => e.pool
    case Some(expr) => ParseTop(toks, e.pos, e.pool.Push(expr))
  }

  /** `parse_ast`. */
  function ParseAst(toks: seq<Token>): (r: AstPool)
    ensures |toks| == 0 ==> r.Len() == 0
  {
    ParseTop(toks, 0, NewPool())
  }

  /** `parse_expr` keeps the arena invariant and returns a node that may be
      pushed next. */
  lemma {:induction false} ExprKeepsPool(toks: seq<Token>, pos: nat, pool: AstPool, prec: Precedence)
    requires pos <= |toks| && PoolOk(pool, toks)
    ensures var r := ParseExpr(toks, pos, pool, prec);
      && PoolOk(r.pool, toks)
      && (r.expr.Some? ==> NodeOk(r.expr.value, r.pool.Len(), toks))
    decreases |toks| - pos, 1
  {
    if pos < |toks| {
      var token := toks[pos];
      if token.kind == LParen {
        ExprKeepsPool(toks, pos + 1, pool, Lowest);
      } else {
        LoopKeepsPool(toks, pos + 1, pool, prec, Literal(token));
      }
    }
  }

  /** The operator loop keeps the arena invariant, given a `lhs` that may be
      pushed next. */
  lemma {:induction false} LoopKeepsPool(toks: seq<Token>, pos: nat, pool: AstPool, prec: Precedence, lhs: AstExpr)
    requires pos <= |toks| && PoolOk(pool, toks) && NodeOk(lhs, pool.Len(), toks)
    ensures var r := ParseLoop(toks, pos, pool, prec, lhs);
      && PoolOk(r.pool, toks)
      && (r.expr.Some? ==> NodeOk(r.expr.value, r.pool.Len(), toks))
    decreases |toks| - pos, 0
  {
    if pos < |toks| && toks[pos].kind != RParen && IsOperator(toks[pos]) {
      var encountered := GetPrecedence(toks[pos]).value;
      if !Below(encountered, prec) {
        var pool1 := pool.Push(lhs);
        ExprKeepsPool(toks, pos + 1, pool1, encountered);
        var rhs := ParseExpr(toks, pos + 1, pool1, encountered);
        if rhs.expr.Some? {
          var pool2 := rhs.pool.Push(rhs.expr.value);
          LoopKeepsPool(toks, rhs.pos, pool2, prec, BinOp(AstRef(pool.Len()), toks[pos], AstRef(rhs.pool.Len())));
        }
      }
    }
  }

  /** The `parse_ast` loop keeps the arena invariant. */
  lemma {:induction false} TopKeepsPool(toks: seq<Token>, pos: nat, pool: AstPool)
    requires pos <= |toks| && PoolOk(pool, toks)
    ensures PoolOk(ParseTop(toks, pos, pool), toks)
    decreases |toks| - pos
  {
    ExprKeepsPool(toks, pos, pool, Lowest);
    var e := ParseExpr(toks, pos, pool, Lowest);
    if e.expr.Some? {
      TopKeepsPool(toks, e.pos, e.pool.Push(e.expr.value));
    }
  }

  /** Every node of a parsed pool is linked to earlier nodes and holds tokens
      of the input. */
  lemma ParseAstKeepsPool(toks: seq<Token>)
    ensures PoolOk(ParseAst(toks), toks)
  {
    TopKeepsPool(toks, 0, NewPool());
  }

  /** An operand token: a literal the operator loop neither consumes nor opens a group with. */
  predicate IsOperand(t: Token) {
    t.kind == Num || t.kind == Ident
  }

  /** `a o1 b o2 c` with `o2` binding at least as tightly as `o1`, equal
      precedence included: the tree nests to the right, `a o1 (b o2 c)`,
      because the right operand of `o1` is parsed with `o1`'s own precedence
      as its floor and the loop there stops only below it. */
  lemma NestsRight(a: Token, o1: Token, b: Token, o2: Token, c: Token)
    requires IsOperand(a) && IsOperand(b) && IsOperand(c)
    requires IsOperator(o1) && IsOperator(o2)
    requires !Below(GetPrecedence(o2).value, GetPrecedence(o1).value)
    ensures ParseAst([a, o1, b, o2, c]).nodes ==
      [Literal(a), Literal(b), Literal(c), BinOp(AstRef(1), o2, AstRef(2)), BinOp(AstRef(0), o1, AstRef(3))]
  {
    var toks := [a, o1, b, o2, c];
    var la, lb, lc := Literal(a), Literal(b), Literal(c);
    var b1 := BinOp(AstRef(1), o2, AstRef(2));
    var b0 := BinOp(AstRef(0), o1, AstRef(3));
    RightOperandNests(a, o1, b, o2, c);
    assert NewPool().Push(la) == AstPool([la]);
    assert AstPool([la, lb, lc]).Push(b1) == AstPool([la, lb, lc, b1]);
    assert AstPool([la, lb, lc, b1]).Push(b0) == AstPool([la, lb, lc, b1, b0]);
    assert ParseLoop(toks, 1, NewPool(), Lowest, la) == Parsed(Some(b0), 5, AstPool([la, lb, lc, b1]));
    assert ParseTop(toks, 5, AstPool([la, lb, lc, b1, b0])) == AstPool([la, lb, lc, b1, b0]);
  }

  /** The right operand of `o1` in `NestsRight`: `b o2 c`, parsed above floor `o1`. */
  lemma RightOperandNests(a: Token, o1: Token, b: Token, o2: Token, c: Token)
    requires IsOperand(a) && IsOperand(b) && IsOperand(c)
    requires IsOperator(o1) && IsOperator(o2)
    requires !Below(GetPrecedence(o2).value, GetPrecedence(o1).value)
    ensures ParseExpr([a, o1, b, o2, c], 2, AstPool([Literal(a)]), GetPrecedence(o1).value)
         == Parsed(Some(BinOp(AstRef(1), o2, AstRef(2))), 5, AstPool([Literal(a), Literal(b), Literal(c)]))
  {
    var toks := [a, o1, b, o2, c];
    var p1, p2 := GetPrecedence(o1).value, GetPrecedence(o2).value;
    var la, lb, lc := Literal(a), Literal(b), Literal(c);
    var b1 := BinOp(AstRef(1), o2, AstRef(2));
    assert NewPool().Push(la) == AstPool([la]);
    assert AstPool([la]).Push(lb) == AstPool([la, lb]);
    assert AstPool([la, lb]).Push(lc) == AstPool([la, lb, lc]);
    assert ParseExpr(toks, 4, AstPool([la, lb]), p2) == Parsed(Some(lc), 5, AstPool([la, lb]));
    assert ParseLoop(toks, 3, AstPool([la]), p1, lb) == Parsed(Some(b1), 5, AstPool([la, lb, lc]));
  }

  /** `a o1 b o2 c` with `o2` binding less tightly than `o1`: the tree groups
      to the left, `(a o1 b) o2 c`. */
  lemma GroupsLeft(a: Token, o1: Token, b: Token, o2: Token, c: Token)
    requires IsOperand(a) && IsOperand(b) && IsOperand(c)
    requires IsOperator(o1) && IsOperator(o2)
    requires Below(GetPrecedence(o2).value, GetPrecedence(o1).value)
    ensures ParseAst([a, o1, b, o2, c]).nodes ==
      [Literal(a), Literal(b), BinOp(AstRef(0), o1, AstRef(1)), Literal(c), BinOp(AstRef(2), o2, AstRef(3))]
  {
    var toks := [a, o1, b, o2, c];
    var p2 := GetPrecedence(o2).value;
    var la, lb, lc := Literal(a), Literal(b), Literal(c);
    var b0 := BinOp(AstRef(0), o1, AstRef(1));
    var b1 := BinOp(AstRef(2), o2, AstRef(3));
    RightOperandStops(a, o1, b, o2, c);
    assert NewPool().Push(la) == AstPool([la]);
    assert AstPool([la]).Push(lb) == AstPool([la, lb]);
    assert AstPool([la, lb]).Push(b0) == AstPool([la, lb, b0]);
    assert AstPool([la, lb, b0]).Push(lc) == AstPool([la, lb, b0, lc]);
    assert AstPool([la, lb, b0, lc]).Push(b1) == AstPool([la, lb, b0, lc, b1]);
    assert ParseExpr(toks, 4, AstPool([la, lb, b0]), p2) == Parsed(Some(lc), 5, AstPool([la, lb, b0]));
    assert ParseLoop(toks, 3, AstPool([la, lb]), Lowest, b0) == Parsed(Some(b1), 5, AstPool([la, lb, b0, lc]));
    assert ParseLoop(toks, 1, NewPool(), Lowest, la) == Parsed(Some(b1), 5, AstPool([la, lb, b0, lc]));
    assert ParseTop(toks, 5, AstPool([la, lb, b0, lc, b1])) == AstPool([la, lb, b0, lc, b1]);
  }

  /** The right operand of `o1` in `GroupsLeft`: the loop above floor `o1`
      stops at the looser `o2` and leaves it unconsumed. */
  lemma RightOperandStops(a: Token, o1: Token, b: Token, o2: Token, c: Token)
    requires IsOperand(b) && IsOperator(o1) && IsOperator(o2)
    requires Below(GetPrecedence(o2).value, GetPrecedence(o1).value)
    ensures ParseExpr([a, o1, b, o2, c], 2, AstPool([Literal(a)]), GetPrecedence(o1).value)
         == Parsed(Some(Literal(b)), 3, AstPool([Literal(a)]))
  {
  }

  // ---------------------------------------------------------------------------
  // display_ast
  // ---------------------------------------------------------------------------

  datatype DisplayError = TreeWasEmpty

  /** The tokens of every node lie within `src`, so slicing their text succeeds. */
  predicate SpansFit(pool: AstPool, src: string) {
    forall i :: 0 <= i < pool.Len() ==>
      match pool.nodes[i]
      case Literal(t) => t.End() <= |src|
      case BinOp(_, op, _) => op.End() <= |src|
  }

  /** A node whose children are both stored below `at`, in either order. */
  predicate ChildrenBelow(e: AstExpr, at: nat) {
    e.BinOp? ==> e.left.index < at && e.right.index < at
  }

  /** The "Invalid Index" lookups succeed: every child index is in the pool and
      below its parent's, so rendering terminates. */
  predicate Displayable(pool: AstPool, src: string) {
    && (forall i :: 0 <= i < pool.Len() ==> ChildrenBelow(pool.nodes[i], i))
    && SpansFit(pool, src)
  }

  /** `display_expr` on a node whose children lie below `bound`. */
  function DisplayExpr(pool: AstPool, node: AstExpr, bound: nat, src: string): string
    requires Displayable(pool, src) && bound <= pool.Len() && ChildrenBelow(node, bound)
    requires node.Literal? ==> node.token.End() <= |src|
    requires node.BinOp? ==> node.op.End() <= |src|
    decreases bound
  {
    match node
    case Literal(token) => TokenText(src, token)
    case BinOp(l, opToken, r) =>
      var op := TokenText(src, opToken);
      var lRepr := DisplayExpr(pool, pool.nodes[l.index], l.index, src);
      var rRepr := DisplayExpr(pool, pool.nodes[r.index], r.index, src);
      "( " + op + " " + lRepr + " " + rRepr + " )"
  }

  /** `display_ast`: renders the last node of the pool, the root of the last
      top-level expression; fails on an empty pool. */
  function DisplayAst(pool: AstPool, src: string): (r: Result<string, DisplayError>)
    requires Displayable(pool, src)
    ensures r.Err? <==> pool.Len() == 0
    ensures r.Err? ==> r.error == TreeWasEmpty
  {
    if pool.Len() == 0 then Err(TreeWasEmpty)
    else
      var root := pool.nodes[pool.Len() - 1];
      Ok(DisplayExpr(pool, root, pool.Len() - 1, src))
  }

  /** Every token of the pool is classified against `src`, and none is a
      parenthesis. */
  predicate OperandsFrom(pool: AstPool, src: string) {
    forall i :: 0 <= i < pool.Len() ==> OperandNode(pool.nodes[i], src)
  }

  predicate NotParen(t: Token) {
    t.kind != LParen && t.kind != RParen
  }

  predicate OperandNode(e: AstExpr, src: string) {
    match e
    case Literal(t) => NotParen(t) && Classified(src, t)
    case BinOp(_, op, _) => NotParen(op) && Classified(src, op)
  }

  /** The number of occurrences of `c` in `s`. */
  function Count(s: string, c: char): nat {
    if |s| == 0 then 0 else (if s[0] == c then 1 else 0) + Count(s[1..], c)
  }

  lemma {:induction false} CountAppend(a: string, b: string, c: char)
    ensures Count(a + b, c) == Count(a, c) + Count(b, c)
    decreases |a|
  {
    if |a| == 0 {
      assert a + b == b;
    } else {
      assert (a + b)[0] == a[0] && (a + b)[1..] == a[1..] + b;
      CountAppend(a[1..], b, c);
    }
  }

  lemma {:induction false} CountAbsent(s: string, c: char)
    requires c !in s
    ensures Count(s, c) == 0
    decreases |s|
  {
    if |s| > 0 {
      assert s[0] != c && forall k :: 0 <= k < |s[1..]| ==> s[1..][k] == s[k + 1];
      CountAbsent(s[1..], c);
    }
  }

  /** When no token of the pool is a parenthesis, the rendering of the node
      at index `i` opens as many parentheses as it closes, and it opens one
      first exactly when the node is binary. */
  lemma {:induction false} RenderBalanced(pool: AstPool, i: nat, src: string)
    requires Displayable(pool, src) && i < pool.Len() && OperandsFrom(pool, src)
    ensures var r := DisplayExpr(pool, pool.nodes[i], i, src);
      && Count(r, '(') == Count(r, ')')
      && 0 < |r| && (r[0] == '(' <==> pool.nodes[i].BinOp?)
    decreases i
  {
    assert ChildrenBelow(pool.nodes[i], i) && OperandNode(pool.nodes[i], src);
    match pool.nodes[i]
    case Literal(t) =>
      NoParens(src, t);
    case BinOp(l, opToken, r) =>
      NoParens(src, opToken);
      var op := TokenText(src, opToken);
      RenderBalanced(pool, l.index, src);
      RenderBalanced(pool, r.index, src);
      var lRepr := DisplayExpr(pool, pool.nodes[l.index], l.index, src);
      var rRepr := DisplayExpr(pool, pool.nodes[r.index], r.index, src);
      WrapCounts(op, lRepr, rRepr);
  }

  /** The text of a classified token other than a parenthesis holds none, and
      does not start with one. */
  lemma NoParens(src: string, t: Token)
    requires Classified(src, t) && t.kind != LParen && t.kind != RParen
    ensures var text := TokenText(src, t);
      && Count(text, '(') == 0 && Count(text, ')') == 0
      && 0 < |text| && text[0] != '('
  {
    ClassifiedText(src, t);
    var text := TokenText(src, t);
    assert '(' !in text && ')' !in text;
    CountAbsent(text, '(');
    CountAbsent(text, ')');
  }

  /** The parentheses of `"( " + op + " " + l + " " + r + " )"`: one more of
      each than `l` and `r` hold together, the first one leading. */
  lemma WrapCounts(op: string, l: string, r: string)
    requires Count(op, '(') == 0 && Count(op, ')') == 0
    ensures var out := "( " + op + " " + l + " " + r + " )";
      && Count(out, '(') == 1 + Count(l, '(') + Count(r, '(')
      && Count(out, ')') == 1 + Count(l, ')') + Count(r, ')')
      && out[0] == '('
  {
    var a := "( " + op + " ";
    var b := a + l + " ";
    var d := b + r;
    forall c | c == '(' || c == ')'
      ensures Count(d + " )", c) == (if c == '(' then 1 else 0) + Count(op, c) + Count(l, c) + Count(r, c) + (if c == ')' then 1 else 0)
    {
      CountAppend("( ", op, c);
      CountAppend("( " + op, " ", c);
      CountAppend(a, l, c);
      CountAppend(a + l, " ", c);
      CountAppend(b, r, c);
      CountAppend(d, " )", c);
    }
  }

  /** A pool parsed from the tokens of `src` can always be rendered against
      `src`: the index lookups and the span slices all succeed. */
  lemma ParsedIsDisplayable(src: string, toks: seq<Token>)
    requires Tokens(src) == Ok(toks)
    ensures Displayable(ParseAst(toks), src)
  {
    var pool := ParseAst(toks);
    ParseAstKeepsPool(toks);
    Lex.LayoutOrdered(src, 0, toks);
    forall i | 0 <= i < pool.Len()
      ensures ChildrenBelow(pool.nodes[i], i)
      ensures match pool.nodes[i]
              case Literal(t) => t.End() <= |src|
              case BinOp(_, op, _) => op.End() <= |src|
    {
      assert NodeOk(pool.nodes[i], i, toks);
    }
  }
}

=== FILE: wrappers.dfy ===
/** Failure-carrying datatypes shared by the lexer and the parser. */
module Wrappers {

  /** A value that may be absent (Rust's `Option`). */
  datatype Option<+T> = None | Some(value: T) {

    /** The wrapped value, or `default` when there is none (Rust's `unwrap_or`). */
    function GetOr(default: T): T
    {
      match this
      case Some(v) => v
      case None => default
    }
  }

  /** A success value or an error value. */
  datatype Result<+T, +E> = Ok(value: T) | Err(error: E)
}
